=== FILE: README.md ===
# x-clone-v2 client logic, modelled in Dafny

This project models the decision logic inside a client-rendered
microblogging front-end. The model covers these parts:

- **Home feed pager** (`FeedPager`). The query parameters advance one page at a time. Each response is merged into an accumulated post list: page 1 replaces the list, and later pages append only posts with unseen ids. The module also covers the infinite-scroll trigger, the "No more posts to load" and loading states, and the avatar URL.
- **Older feed page** (`LegacyFeed`). It uses the same page gate, but with a "Load More" button. It shows only the current page.
- **Session guard** (`SessionGuard`). `checkAuth` is modelled as the ordered list of store, cookie, toast and network calls it makes, given the identity request's outcome. The module also has the redirect decision and the choice between the loading placeholder and the wrapped view.
- **Post list** (`DragDelete`). Drag start, over, leave, drop and end form a state machine that issues delete requests. The module also decides which posts are drawn and which can be dragged.
- **Post card** (`PostItem`). This covers the `timeAgo` label, the like glyph, the author-only controls and in-place editing.
- **Profile editor** (`ProfileEditor`). It seeds the form from the store and validates the chosen avatar (size first, then MIME type). It also builds the multipart body, writes the store after a save and picks the error text.
- **Post composer** (`PostComposer`). It refuses blank posts, passes accepted text through unchanged and clears the form.

Shared modules:
- `Common` holds `Option`, JavaScript string truthiness, `startsWith`, `trim()` with ECMAScript's whitespace set, and decimal rendering of naturals with its parser.
- `Assets` holds the asset-URL rule and the preview effect.
- `Users` holds the user record.
- `FeedTypes` holds the request and response shapes of the feed endpoint.
- `ApiClient` holds the bearer-header rule.

Each component module declares its own minimal post record with just the fields its code reads. The source files come from different revisions and their post types disagree.

Browser services become parameters, events or returned values. The clock becomes an integer millisecond difference. The `IntersectionObserver` becomes a boolean `intersecting`. A `router.replace` call becomes a returned route, and a store call becomes an `Effect`. The asset host `assetBaseURL` is a parameter `base`: `src/lib/api.ts` in this revision does not define it.

JavaScript truthiness is followed exactly. An empty signed-in name never shows the filled heart. An empty `redirect` parameter falls back to `/`. An empty server message falls back to "Failed to update profile".

## Model

| member | source | states |
|---|---|---|
| FeedPager.MergePage | src/app/home/containers/HomePage.tsx:97-110 | no response leaves the list alone; page 1 replaces it by the response; other pages keep the old list as an unchanged prefix, append exactly the response's posts whose id was not held, in response order and once each (the filter below), and afterwards hold every id of the response |
| FeedPager.FreshPosts | src/app/home/containers/HomePage.tsx:103-105 | a post survives the filter iff it is in the response and its id is not in the accumulator |
| FeedPager.FreshPostsSingle | src/app/home/containers/HomePage.tsx:103-105 | a single post is kept iff its id is new |
| FeedPager.FreshPostsAppend | src/app/home/containers/HomePage.tsx:102-107 | the filter distributes over concatenation, so appended posts keep the response's order |
| FeedPager.FreshPostsNoneNew | src/app/home/containers/HomePage.tsx:103-106 | when every response id is already held, nothing is appended |
| FeedPager.FreshPostsDistinct | src/app/home/containers/HomePage.tsx:103-106 | filtering a duplicate-free response leaves it duplicate-free |
| FeedPager.MergeKeepsDistinct | src/app/home/containers/HomePage.tsx:99-107 | a duplicate-free accumulator merged with a duplicate-free response stays duplicate-free, on any page |
| FeedPager.MergeNothingNew | src/app/home/containers/HomePage.tsx:102-107 | a later-page response with only known ids leaves the accumulator unchanged |
| FeedPager.MergeIdempotent | src/app/home/containers/HomePage.tsx:97-110 | merging the same response twice equals merging it once |
| FeedPager.AccumulateKeepsDistinct | src/app/home/containers/HomePage.tsx:97-110 | over any series of page loads with duplicate-free responses, no id is ever held twice |
| FeedPager.AccumulateKeepsPrefix | src/app/home/containers/HomePage.tsx:102-107 | loading further pages (none of them page 1) never reorders or drops what was accumulated |
| FeedPager.LoadMore | src/app/home/containers/HomePage.tsx:122-129 | parameters change iff metadata is present and page (missing = 1) < max_page, and then page becomes that page + 1; per_page always kept |
| FeedPager.LoadMoreTimesBounded | src/app/home/containers/HomePage.tsx:122-129 | n calls from page p land on min(p + n, max(p, max_page)): paging never passes max_page |
| FeedPager.Refetch | src/app/home/containers/HomePage.tsx:114-120 | back to page 1 with per_page kept, so the next response replaces the whole feed |
| FeedPager.ShouldLoadOnScroll | src/app/home/containers/HomePage.tsx:131-137 | fires only when intersecting, not loading and the page gate holds, and then advances exactly one page; never fires with a missing or zero page |
| FeedPager.NoMorePosts | src/app/home/containers/HomePage.tsx:233 | shown only with metadata; with a page set, shown iff no further page can load; with no page (counted as 0 here, as 1 by the guard) shown only for a non-positive max_page |
| FeedPager.PagingFromMount | src/app/home/containers/HomePage.tsx:36-39 | from the mount parameters (page 1, ten per page), n loads reach page min(1 + n, max(1, max_page)) and keep ten per page |
| FeedPager.NoMorePostsStopsPaging | src/app/home/containers/HomePage.tsx:232-236 | in every state, once "No more posts to load" shows, neither loadMore nor the scroll trigger requests anything; with a page set and metadata, the message shows iff no further page can load |
| FeedPager.View | src/app/home/containers/HomePage.tsx:216-236 | full "Loading posts..." iff loading page 1; error otherwise when failed; the list shows a spinner iff loading a page > 1 (missing = 0) |
| FeedPager.GetImageUrl | src/app/home/containers/HomePage.tsx:76-79 | no URL iff the path is absent or empty; otherwise the resolved asset URL |
| Assets.ResolveAssetUrl | src/app/home/containers/HomePage.tsx:78 | the stored value is the tail of the result; the result is the value itself iff it starts with `http`, otherwise it is exactly base + `/assets/` + the value |
| Assets.ResolveIdempotent | src/app/home/containers/HomePage.tsx:78 | with an `http` asset host, resolving a resolved URL changes nothing |
| Assets.SyncPreview | src/app/page.tsx:39-49 | a user with a non-empty image path sets the preview to the resolved URL; otherwise the previous preview stays |
| LegacyFeed.LoadMore | src/app/page.tsx:68-75 | parameters change iff metadata is present and a set page < max_page, then to page + 1; per_page kept |
| LegacyFeed.ShowLoadMore | src/app/page.tsx:151-157 | the button shows iff pressing it changes the parameters, and the page it leads to is at most max_page |
| LegacyFeed.SameGateAsHomeFeed | src/app/page.tsx:68-75 | with a page set, this gate and its result agree with the home feed's |
| LegacyFeed.DisplayedPosts | src/app/page.tsx:65 | the shown posts are the current response's data (what a page-1 merge into an empty list gives), or none before a response |
| LegacyFeed.DisplayedIdsAlsoInHomeFeed | src/app/page.tsx:65 | every id shown here is held by the home feed after merging the same response |
| LegacyFeed.View | src/app/page.tsx:140-159 | loading message iff loading (any page); error iff not loading and failed; the list carries the Load More button iff it would change the page |
| SessionGuard.CheckAuth | src/components/hoc/withAuth.tsx:41-72 | logout iff no token and authenticated; identity request iff token and no user; login only on returned data, with that identity and the same token; token removed iff the request gave no identity; loading stopped last, except with a token and a cached user, where nothing happens; no call is made twice, and a toast appears only as the invalid-session text for a token whose response had no data |
| SessionGuard.FetchCompletion | src/components/hoc/withAuth.tsx:53-67 | loading is stopped last in every outcome; login iff an identity arrived, with the token it was fetched with; token removed iff none arrived; the invalid-session toast iff the response had no data, and no other toast; each call made at most once |
| SessionGuard.ResolveAnyState | src/components/hoc/withAuth.tsx:41-72 | from any store state: no token ends unauthenticated and not loading, with the user cleared only if it was authenticated; token with cached user changes nothing; an identity ends authenticated with it; a failed or empty load only discards the token and stops loading, leaving the flags and user as they were |
| SessionGuard.ResolveFromMount | src/components/hoc/withAuth.tsx:41-81 | from the assumed mount state (loading, unauthenticated, no user): no token ends unauthenticated; loaded identity ends authenticated with it; failed or empty load ends unauthenticated with the token gone; loading over in all cases |
| SessionGuard.ResolveStableOnceResolved | src/components/hoc/withAuth.tsx:50 | a focus-triggered re-check with a token and a cached user changes nothing |
| SessionGuard.LoginRedirect | src/components/hoc/withAuth.tsx:92 | the route is `/login?redirect=` followed by the path, copied character for character, without encoding |
| SessionGuard.QueryValue | src/components/hoc/withAuth.tsx:30 | the value is the text up to the first `&` or `#` (or the end), character by character, with each `+` read as a space; `%` escapes are left undecoded |
| SessionGuard.RedirectParam | src/components/hoc/withAuth.tsx:30 | the leading `redirect` parameter is read exactly from routes starting `/login?redirect=`, and it is no longer than the rest of the route |
| SessionGuard.QueryValueSafe | src/components/hoc/withAuth.tsx:30 | text without `&`, `#`, `+` or `%` is read back unchanged |
| SessionGuard.QueryValueStopsAtAmpersand | src/components/hoc/withAuth.tsx:30 | a value is read only up to the first `&`; what follows belongs to another parameter |
| SessionGuard.LoginRedirectRoundTrip | src/components/hoc/withAuth.tsx:30-92 | a path without `&`, `#`, `+` or `%` put into `/login?redirect=` is read back unchanged |
| SessionGuard.LoginRedirectCutAtAmpersand | src/components/hoc/withAuth.tsx:30-92 | a path containing `&` is read back only up to the `&`, because the path is not encoded |
| SessionGuard.RedirectTarget | src/components/hoc/withAuth.tsx:83-98 | no redirect while loading; a signed-in user is moved only off `/login`, to `redirect` or `/`; a guarded view without a signed-in user goes to `/login?redirect=<path>`; a public view sends an authenticated user without identity from `/login` to `/` |
| SessionGuard.Render | src/components/hoc/withAuth.tsx:100-111 | the wrapped view iff not loading and, when guarded, authenticated with a user; it receives exactly the store's user |
| SessionGuard.GuardedViewOrLogin | src/components/hoc/withAuth.tsx:83-111 | a guarded view is never both shown and redirected to login |
| SessionGuard.GuardedMount | src/components/hoc/withAuth.tsx:41-111 | mounting a guarded view: a loaded identity shows the view with it and no redirect; no token shows the placeholder and redirects to login carrying the path, which reads back when it has no query-special character |
| SessionGuard.ReturnAfterLogin | src/components/hoc/withAuth.tsx:85-92 | once signed in on the login page reached by a guard redirect, the guard's own decision on `/login` targets the original path (one without query-special characters) |
| ApiClient.AuthorizationHeader | src/lib/api.ts:45 | empty iff no truthy token; otherwise a bearer value from which the token reads back unchanged |
| DragDelete.Find | src/app/components/PostList.tsx:26 | none iff no post has the key; otherwise the first post with that key |
| DragDelete.Handle | src/app/components/PostList.tsx:25-61 | dragStart records the key and sets dragging only for a listed owned post, else no change; over and leave set only the hover flag; drop and end reset all three fields; a delete is issued only by a drop while the drop zone is shown, for the recorded key, when listed and owned |
| DragDelete.HandleKeepsConsistent | src/app/components/PostList.tsx:25-61 | on an unchanged list, a recorded key always names an owned listed post and dragging is set iff a key is recorded |
| DragDelete.RunDeletesOnlyOwned | src/app/components/PostList.tsx:48-58 | over any event series, every delete targets an owned listed post, at most one per event |
| DragDelete.StartThenDropDeletes | src/app/components/PostList.tsx:25-61 | start on an owned post, hover, drop: exactly that post is deleted once and the state is idle |
| DragDelete.VisibleItems | src/app/components/PostList.tsx:69-85 | at most one item per post; what is drawn and in which order is stated by the three lemmas that follow |
| DragDelete.VisibleItemsMembers | src/app/components/PostList.tsx:69-85 | exactly the non-deleted posts are drawn, each draggable iff owned; an all-deleted list draws nothing |
| DragDelete.VisibleItemsSingle | src/app/components/PostList.tsx:70-72 | a single post is drawn, draggable iff owned, exactly when it is not flagged deleted |
| DragDelete.VisibleItemsAppend | src/app/components/PostList.tsx:69-85 | drawing a concatenation draws the first part, then the second: with the single-post case, the drawn items keep the list's order |
| DragDelete.Render | src/app/components/PostList.tsx:66-86 | "No posts yet!" iff the list is empty; otherwise the drawn items are exactly the list's drawing (every post not flagged deleted, draggable iff owned, in list order), so no deleted post is drawn |
| PostItem.Classify | src/app/components/PostItem.tsx:23-33 | "just now" iff the difference is under one minute (negatives included); minutes for one minute up to an hour, with the floor bounds; hours above, with no larger unit |
| Common.NatToString | src/app/components/PostItem.tsx:29 | a count is printed as at least one decimal digit, digits only, starting with `0` only for zero |
| PostItem.Label | src/app/components/PostItem.tsx:26-32 | "Just now" only for that reading; a count is printed without leading zeros (it starts with `0` only for a zero count) |
| PostItem.TimeAgo | src/app/components/PostItem.tsx:20-34 | "Just now" iff under a minute; otherwise the count has no leading zero; the label always reads back to its reading |
| PostItem.LabelRoundTrip | src/app/components/PostItem.tsx:29-32 | every label parses back to its reading, by a reader that refuses zero-padded counts: the count is exact, units are not confused, and the singular form is used iff the count is 1 |
| PostItem.ZeroPaddedCountRefused | src/app/components/PostItem.tsx:29 | "05 minutes ago" is not a label the reader accepts, while "5 minutes ago" reads as five minutes |
| Common.NatToStringRoundTrip | src/app/components/PostItem.tsx:29 | the decimal text of a count reads back to that count |
| PostItem.LikeGlyph | src/app/components/PostItem.tsx:107 | filled heart iff a non-empty signed-in name is among the likers |
| PostItem.CanModify | src/app/components/PostItem.tsx:110 | edit and delete are offered iff the signed-in name equals the author |
| PostItem.ActionBar | src/app/components/PostItem.tsx:99-118 | only Save while editing; otherwise the like glyph, the count, and owner controls iff the user is the author |
| PostItem.StartEdit | src/app/components/PostItem.tsx:112 | enters edit mode only for the author and only when not already editing |
| PostItem.Save | src/app/components/PostItem.tsx:60-63 | sends the post's id with the current draft and leaves edit mode |
| PostItem.EditSession | src/app/components/PostItem.tsx:43-63 | an author who edits, types and saves sends exactly the typed text for that post |
| ProfileEditor.SeedFromStore | src/app/profile/page.tsx:27-39 | with a stored user, name and bio (missing becomes "") are taken and the preview follows the shared rule; without one nothing changes |
| ProfileEditor.FirstSeed | src/app/profile/page.tsx:18-38 | on the first seed from a stored user the fields show its name and bio, no file is chosen, and a preview appears iff the user has a non-empty image path, resolved by the shared rule |
| ProfileEditor.OrEmpty | src/app/profile/page.tsx:29-30 | a missing or empty value becomes "", any other is kept |
| ProfileEditor.CheckImage | src/app/profile/page.tsx:74-86 | no file, then over 2 MiB refused, then a non-`image/` type refused, else accepted; each outcome is characterised both ways |
| ProfileEditor.ChoiceError | src/app/profile/page.tsx:78-86 | a message exactly for a refused file: the size text for a too-large file, the type text for a non-image; the two texts differ |
| ProfileEditor.ChooseImage | src/app/profile/page.tsx:74-88 | only an accepted file replaces the stored one; any refusal reports one error and changes nothing; a too-large file reports the size text and a non-image of allowed size the type text |
| ProfileEditor.SizeBoundary | src/app/profile/page.tsx:78 | exactly 2 MiB with an image type is accepted; one byte more is refused for size |
| ProfileEditor.FormFields | src/app/profile/page.tsx:97-112 | name then bio always; an image entry iff a file was accepted, holding that file |
| ProfileEditor.SubmitAfterChoice | src/app/profile/page.tsx:88-109 | after an accepted choice the body carries that file; after a refusal it is unchanged |
| ProfileEditor.OnSuccess | src/app/profile/page.tsx:50-62 | with a stored user, id and username kept and name, bio and image taken from the response; nothing written without one |
| ProfileEditor.SavedValuesReappear | src/app/profile/page.tsx:53-59 | reopening the editor after a save shows the saved name and bio |
| ProfileEditor.ErrorMessage | src/app/profile/page.tsx:63-66 | the server's non-empty message, else "Failed to update profile"; never empty |
| Common.Trim | src/app/components/PostForm.tsx:12 | empty iff every character is ECMAScript whitespace; otherwise neither end is whitespace |
| PostComposer.Submit | src/app/components/PostForm.tsx:10-15 | refused iff all whitespace, with the alert and content kept; otherwise the untrimmed text is posted once and the field cleared |
| PostComposer.DoubleSubmitPostsOnce | src/app/components/PostForm.tsx:12-14 | an accepted submit followed by another posts only once |

## Left out

- HTTP client, query cache and network calls. The responses of `/post`, `/user/me` and `/user/update` are inputs. `refetch` and the mutation plumbing are not modelled.
- Races between asynchronous effects. The code has no stale-response guard, so a late page response after a refresh is not modelled.
- The auth store is not part of this model. `SessionGuard.ApplyEffect` assumes that `login` records the identity and sets authenticated, that `logout` clears both, and that `stopLoading` ends loading. The lemmas built on `ApplyEffect` depend on these assumptions.
- SessionGuard.ResolveFromMount: the store's initial state (loading, unauthenticated, no user, as `SessionGuard.Initial` states) is an assumption about the store module. `SessionGuard.ResolveAnyState` states the outcome from any start state. There, a failed load from an authenticated state stays authenticated, since that path never calls `logout`.
- SessionGuard.RedirectParam: only a `redirect` parameter that comes first in the query is read. `params.get("redirect")` also finds it after other parameters. The guard's own login route always puts it first.
- SessionGuard.QueryValue: `URLSearchParams.get` decodes `%XX` escapes (so `%26` reads as `&`), and the model does not. Its value is the raw text up to `&` or `#` with `+` read as a space.
- SessionGuard.LoginRedirectRoundTrip: `URLSearchParams` also decodes `%` escapes, and that decoding is not modelled. The round trip is stated only for paths without `&`, `#`, `+` or `%`. `SessionGuard.LoginRedirectCutAtAmpersand` shows the loss for `&`.
- SessionGuard.ReturnAfterLogin: on success the login mutation itself calls `router.push("/")` (src/app/(auth)/login/hooks/useLoginMutation.ts:35). That push competes with the guard's `router.replace(redirect)`, and which navigation wins is not modelled. The lemma states only the guard's own decision.
- FeedPager.LoadMore: the source tests the rendered `queryParams.page` (src/app/home/containers/HomePage.tsx:123) but increments the updater's `prev.page` (line 126). Two calls within one render could therefore pass `max_page`. The model reads one parameter value for both, so each call sees the state left by the previous one.
- SessionGuard.CheckAuth: the `await` on token removal and the toast call are plain entries in the effect list, not timed side effects.
- PostItem.TimeAgo: the input is an integer millisecond difference. An unparseable timestamp gives NaN in the source, and that path is not modelled. Real `Date` differences are far below 10^21, so the plain decimal rendering is exact.
- ProfileEditor.ChooseImage: the preview set by the asynchronous `FileReader` after an accepted file is not modelled.
- ProfileEditor.OnSuccess: the toast and the navigation to `/` after saving are not modelled.
- Logout handlers in the home feed and the profile editor, and the scroll-to-top button (`scrollY > 300`). These are a store call plus navigation, or a browser scroll listener, with no decision logic.
- Post card text truncation and "Show more". These depend on DOM layout measurement.
- Like toggling and deletion on the post card only call parent callbacks. There is no logic to model. The shown files contain no like/unlike request code.
- Pure presentation: class names, icons and layout markup.

=== FILE: api_client.dfy ===
/** The bearer-header rule of the request interceptor (src/lib/api.ts). */
module ApiClient {
  import opened Common

  const BearerPrefix := "Bearer "

  /** The token read back from an `Authorization` header value. */
  function BearerToken(header: string): Option<string> {
    if StartsWith(header, BearerPrefix) then Some(header[|BearerPrefix|..]) else None
  }

  /** The `Authorization` header value: empty without a (truthy) token, and
      otherwise a bearer credential from which the token is read back
      unchanged. */
  function AuthorizationHeader(token: Option<string>): (h: string)
    ensures h == "" <==> !Truthy(token)
    ensures Truthy(token) ==> BearerToken(h) == token
  {
    if Truthy(token) then
      var h := BearerPrefix + token.value;
      assert h[..|BearerPrefix|] == BearerPrefix;
      assert h[|BearerPrefix|..] == token.value;
      h
    else ""
  }
}

=== FILE: assets.dfy ===
/** Resolution of stored image paths to displayable URLs, shared by the home
    feed, the older feed page and the profile editor. The asset host
    (`assetBaseURL`) comes from configuration and is a parameter here. */
module Assets {
  import opened Common
  import opened Users

  const HttpPrefix := "http"
  const AssetsSegment := "/assets/"

  /** An absolute `http…` URL is used as is; anything else is a path under
      the asset host's `/assets/` directory. Either way the stored value is
      the tail of the result, so no part of it is lost or rewritten. */
  function ResolveAssetUrl(base: string, url: string): (r: string)
    ensures |url| <= |r| && r[|r| - |url|..] == url
    ensures StartsWith(r, HttpPrefix) || StartsWith(r, base + AssetsSegment)
    ensures StartsWith(url, HttpPrefix) <==> r == url
    ensures !StartsWith(url, HttpPrefix) ==> r == base + AssetsSegment + url
  {
    if StartsWith(url, HttpPrefix) then url else base + AssetsSegment + url
  }

  /** With an `http` asset host every resolved URL is absolute, so resolving
      it again changes nothing. */
  lemma ResolveIdempotent(base: string, url: string)
    requires StartsWith(base, HttpPrefix)
    ensures ResolveAssetUrl(base, ResolveAssetUrl(base, url)) == ResolveAssetUrl(base, url)
  {
  }

  /** The preview effect run when the stored user changes: a user with a
      non-empty `image_url` sets the preview to its resolved URL; otherwise
      the preview keeps whatever value it had (it is never cleared). */
  function SyncPreview(base: string, preview: Option<string>, user: Option<User>): (r: Option<string>)
    ensures user.Some? && Truthy(user.value.imageUrl)
            ==> r == Some(ResolveAssetUrl(base, user.value.imageUrl.value))
    ensures !(user.Some? && Truthy(user.value.imageUrl)) ==> r == preview
  {
    if user.Some? && Truthy(user.value.imageUrl) then
      Some(ResolveAssetUrl(base, user.value.imageUrl.value))
    else
      preview
  }

}

=== FILE: common.dfy ===
/** Shared building blocks: an option type, the JavaScript notions of string
    truthiness, prefix test and `trim()`, and decimal rendering of naturals as
    done by template-literal interpolation. */
module Common {

  /** A value that may be absent (`null` or `undefined` in the source). */
  datatype Option<T> = None | Some(value: T)

  /** JavaScript truthiness of a `string | null`: absent and "" are falsy. */
  predicate Truthy(s: Option<string>) {
    s.Some? && s.value != ""
  }

  /** `s.startsWith(prefix)`. */
  predicate StartsWith(s: string, prefix: string) {
    |prefix| <= |s| && s[..|prefix|] == prefix
  }

  /** The characters `String.prototype.trim` removes: the WhiteSpace and
      LineTerminator productions of ECMAScript (section 12.2 and 12.3 of
      ECMA-262), i.e. tab, vertical tab, form feed, space, no-break space,
      byte-order mark, the space separators of Unicode category Zs, line
      feed, carriage return, line separator and paragraph separator. */
  predicate IsJsWhitespace(c: char) {
    || c == '\t' || c == '\n' || c == '\U{000B}' || c == '\U{000C}' || c == '\r'
    || c == ' ' || c == '\U{00A0}' || c == '\U{1680}'
    || ('\U{2000}' <= c <= '\U{200A}')
    || c == '\U{2028}' || c == '\U{2029}' || c == '\U{202F}' || c == '\U{205F}'
    || c == '\U{3000}' || c == '\U{FEFF}'
  }

  predicate AllWhitespace(s: string) {
    forall i :: 0 <= i < |s| ==> IsJsWhitespace(s[i])
  }

  /** Index of the first non-whitespace character at or after `i`
      (`|s|` when there is none). */
  function SkipLeading(s: string, i: nat): (k: nat)
    requires i <= |s|
    ensures i <= k <= |s|
    ensures forall j :: i <= j < k ==> IsJsWhitespace(s[j])
    ensures k < |s| ==> !IsJsWhitespace(s[k])
    decreases |s| - i
  {
    if i < |s| && IsJsWhitespace(s[i]) then SkipLeading(s, i + 1) else i
  }

  /** End of `s[lo..hi]` once its trailing whitespace is dropped. */
  function SkipTrailing(s: string, lo: nat, hi: nat): (k: nat)
    requires lo <= hi <= |s|
    ensures lo <= k <= hi
    ensures forall j :: k <= j < hi ==> IsJsWhitespace(s[j])
    ensures k > lo ==> !IsJsWhitespace(s[k - 1])
    decreases hi
  {
    if hi > lo && IsJsWhitespace(s[hi - 1]) then SkipTrailing(s, lo, hi - 1) else hi
  }

  /** `s.trim()`: empty exactly when every character is whitespace, and
      otherwise a string that neither starts nor ends with whitespace. */
  function Trim(s: string): (r: string)
    ensures r == [] <==> AllWhitespace(s)
    ensures r != [] ==> !IsJsWhitespace(r[0]) && !IsJsWhitespace(r[|r| - 1])
    ensures |r| <= |s|
  {
    var lo := SkipLeading(s, 0);
    var hi := SkipTrailing(s, lo, |s|);
    s[lo..hi]
  }

  predicate IsDigit(c: char) {
    '0' <= c <= '9'
  }

  predicate AllDigits(s: string) {
    forall i :: 0 <= i < |s| ==> IsDigit(s[i])
  }

  function DigitChar(d: nat): char
    requires d < 10
  {
    ('0' as int + d) as char
  }

  /** Decimal rendering of a natural number, as `${n}` produces it: at least
      one digit, digits only, and no leading zero unless the number is 0. */
  function NatToString(n: nat): (r: string)
    ensures |r| >= 1
    ensures AllDigits(r)
    ensures r[0] == '0' <==> n == 0
    decreases n
  {
    if n < 10 then [DigitChar(n)] else NatToString(n / 10) + [DigitChar(n % 10)]
  }

  /** The number a string of decimal digits denotes. */
  function DigitsValue(s: string): nat
    requires AllDigits(s)
  {
    if s == [] then 0 else DigitsValue(s[..|s| - 1]) * 10 + (s[|s| - 1] as int - '0' as int)
  }

  /** Reading the rendered digits back gives the number rendered. */
  lemma {:induction false} NatToStringRoundTrip(n: nat)
    ensures DigitsValue(NatToString(n)) == n
    decreases n
  {
    var r := NatToString(n);
    if n >= 10 {
      NatToStringRoundTrip(n / 10);
      assert r[..|r| - 1] == NatToString(n / 10);
    }
  }
}

=== FILE: drag_delete.dfy ===
/** The post list (src/app/components/PostList.tsx): which posts are drawn,
    which of them may be dragged, and the drag-to-delete interaction with the
    drop zone that appears while a post is being dragged. */
module DragDelete {
  import opened Common

  /** A post as the list reads it: the string form of its id, its author's
      username (`post.user.username`) and the deletion flag. */
  datatype Post = Post(key: string, author: string, isDeleted: bool)

  /** Whether the signed-in user (absent when signed out) wrote the post. */
  predicate Owns(currentUser: Option<string>, p: Post) {
    currentUser == Some(p.author)
  }

  /** `posts.find(p => p.id.toString() === key)`: the first post with that key. */
  function Find(posts: seq<Post>, key: string): (r: Option<Post>)
    ensures r.None? <==> forall i :: 0 <= i < |posts| ==> posts[i].key != key
    ensures r.Some? ==> exists i :: 0 <= i < |posts| && posts[i] == r.value
                          && (forall j :: 0 <= j < i ==> posts[j].key != key)
    ensures r.Some? ==> r.value.key == key
    decreases |posts|
  {
    if posts == [] then None
    else if posts[0].key == key then Some(posts[0])
    else
      var r := Find(posts[1..], key);
      FindShift(posts, key, r);
      r
  }

  lemma FindShift(posts: seq<Post>, key: string, r: Option<Post>)
    requires posts != [] && posts[0].key != key
    requires r.Some? ==> exists i :: 0 <= i < |posts[1..]| && posts[1..][i] == r.value
                           && (forall j :: 0 <= j < i ==> posts[1..][j].key != key)
    ensures r.Some? ==> exists i :: 0 <= i < |posts| && posts[i] == r.value
                          && (forall j :: 0 <= j < i ==> posts[j].key != key)
  {
    if r.Some? {
      var i :| 0 <= i < |posts[1..]| && posts[1..][i] == r.value
               && (forall j :: 0 <= j < i ==> posts[1..][j].key != key);
      assert posts[i + 1] == r.value;
      forall j | 0 <= j < i + 1
        ensures posts[j].key != key
      {
        if j > 0 {
          assert posts[j] == posts[1..][j - 1];
        }
      }
    }
  }

  /** The post found under `key` exists and belongs to the signed-in user. */
  predicate OwnedInList(posts: seq<Post>, currentUser: Option<string>, key: string) {
    Find(posts, key).Some? && Owns(currentUser, Find(posts, key).value)
  }

  // ---------------------------------------------------------------------
  // Drag state machine (PostList.tsx:19-61)
  // ---------------------------------------------------------------------

  datatype DragState = DragState(draggedPostId: Option<string>, isDragOver: bool, isDragging: bool)

  const Idle := DragState(None, false, false)

  datatype Event =
    | DragStart(key: string)
    | DragOver
    | DragLeave
    | Drop
    | DragEnd

  /** The state after an event and the delete request it issues, if any. */
  datatype Step = Step(state: DragState, delete: Option<string>)

  /** The drop zone (and so drop, over and leave) exists only while a truthy
      post key is recorded. */
  predicate DropZoneShown(s: DragState) {
    Truthy(s.draggedPostId)
  }

  /** One handler run. `dragStart` records the key only for a listed post
      the user owns; `dragOver`/`dragLeave` touch only the hover flag; `drop`
      deletes the recorded post when it is listed and owned and then resets
      everything; `dragEnd` resets everything. */
  function Handle(posts: seq<Post>, currentUser: Option<string>, s: DragState, e: Event): (r: Step)
    ensures e.DragStart? ==>
      && r.delete.None?
      && (OwnedInList(posts, currentUser, e.key) ==> r.state == s.(draggedPostId := Some(e.key), isDragging := true))
      && (!OwnedInList(posts, currentUser, e.key) ==> r.state == s)
    ensures e.DragOver? ==> r == Step(s.(isDragOver := true), None)
    ensures e.DragLeave? ==> r == Step(s.(isDragOver := false), None)
    ensures e.Drop? || e.DragEnd? ==> r.state == Idle
    ensures r.delete.Some? ==> e.Drop? && DropZoneShown(s) && s.draggedPostId == r.delete && OwnedInList(posts, currentUser, r.delete.value)
    ensures e.Drop? && DropZoneShown(s) && OwnedInList(posts, currentUser, s.draggedPostId.value) ==> r.delete == s.draggedPostId
  {
    match e
    case DragStart(key) =>
      if OwnedInList(posts, currentUser, key)
      then Step(s.(draggedPostId := Some(key), isDragging := true), None)
      else Step(s, None)
    case DragEnd => Step(Idle, None)
    case DragOver => Step(s.(isDragOver := true), None)
    case DragLeave => Step(s.(isDragOver := false), None)
    case Drop =>
      var delete :=
        if Truthy(s.draggedPostId) && OwnedInList(posts, currentUser, s.draggedPostId.value)
        then s.draggedPostId else None;
      Step(Idle, delete)
  }

  /** While the list is unchanged, a recorded key always names a listed post
      the user owns, and `isDragging` is set exactly when a key is recorded. */
  predicate Consistent(posts: seq<Post>, currentUser: Option<string>, s: DragState) {
    && (s.isDragging <==> s.draggedPostId.Some?)
    && (s.draggedPostId.Some? ==> OwnedInList(posts, currentUser, s.draggedPostId.value))
  }

  lemma HandleKeepsConsistent(posts: seq<Post>, currentUser: Option<string>, s: DragState, e: Event)
    requires Consistent(posts, currentUser, s)
    ensures Consistent(posts, currentUser, Handle(posts, currentUser, s, e).state)
  {
  }

  /** Running a series of events from `s`; returns the final state and every
      delete request issued, in order. */
  function Run(posts: seq<Post>, currentUser: Option<string>, s: DragState, events: seq<Event>): (r: (DragState, seq<string>))
    decreases |events|
  {
    if events == [] then (s, [])
    else
      var step := Handle(posts, currentUser, s, events[0]);
      var rest := Run(posts, currentUser, step.state, events[1..]);
      (rest.0, (if step.delete.Some? then [step.delete.value] else []) + rest.1)
  }

  /** Over any series of drag events on an unchanged list, starting idle,
      the state stays consistent, every delete request targets a listed post
      of the signed-in user, and no event other than a drop requests one. */
  lemma {:induction false} RunDeletesOnlyOwned(posts: seq<Post>, currentUser: Option<string>,
                                               s: DragState, events: seq<Event>)
    requires Consistent(posts, currentUser, s)
    ensures Consistent(posts, currentUser, Run(posts, currentUser, s, events).0)
    ensures forall k :: k in Run(posts, currentUser, s, events).1 ==> OwnedInList(posts, currentUser, k)
    ensures |Run(posts, currentUser, s, events).1| <= |events|
    decreases |events|
  {
    if events != [] {
      var step := Handle(posts, currentUser, s, events[0]);
      HandleKeepsConsistent(posts, currentUser, s, events[0]);
      RunDeletesOnlyOwned(posts, currentUser, step.state, events[1..]);
    }
  }

  /** A drag that starts on an owned post and is dropped on the zone deletes
      exactly that post, once, and leaves the list idle. */
  lemma StartThenDropDeletes(posts: seq<Post>, currentUser: Option<string>, key: string)
    requires key != ""
    requires OwnedInList(posts, currentUser, key)
    ensures Run(posts, currentUser, Idle, [DragStart(key), DragOver, Drop]) == (Idle, [key])
  {
    var s1 := Handle(posts, currentUser, Idle, DragStart(key)).state;
    var s2 := Handle(posts, currentUser, s1, DragOver).state;
    assert s2 == DragState(Some(key), true, true);
    assert Handle(posts, currentUser, s2, Drop) == Step(Idle, Some(key));
    assert [DragStart(key), DragOver, Drop][1..] == [DragOver, Drop];
    assert [DragOver, Drop][1..] == [Drop];
    assert [Drop][1..] == [];
    assert Run(posts, currentUser, Idle, []) == (Idle, []);
    assert [key] + [] == [key];
    assert Run(posts, currentUser, s2, [Drop]) == (Idle, [key]);
    assert Handle(posts, currentUser, s1, DragOver) == Step(s2, None);
    assert Run(posts, currentUser, s1, [DragOver, Drop]) == (Idle, [] + [key]);
    assert Handle(posts, currentUser, Idle, DragStart(key)) == Step(s1, None);
    assert [] + [key] == [key];
    assert Run(posts, currentUser, Idle, [DragStart(key), DragOver, Drop])
        == (Idle, [] + Run(posts, currentUser, s1, [DragOver, Drop]).1);
  }

  // ---------------------------------------------------------------------
  // List rendering (PostList.tsx:66-86)
  // ---------------------------------------------------------------------

  /** A drawn post and whether it can be dragged. */
  datatype Item = Item(post: Post, draggable: bool)

  datatype ListView = NoPostsYet | Items(items: seq<Item>)

  /** The drawn posts: the ones not flagged deleted, in list order, each
      draggable exactly when the signed-in user owns it. What is drawn is
      stated by `VisibleItemsMembers`, the order by `VisibleItemsSingle`
      with `VisibleItemsAppend`. */
  function VisibleItems(posts: seq<Post>, currentUser: Option<string>): (r: seq<Item>)
    ensures |r| <= |posts|
    decreases |posts|
  {
    if posts == [] then []
    else
      var rest := VisibleItems(posts[1..], currentUser);
      if posts[0].isDeleted then rest
      else [Item(posts[0], Owns(currentUser, posts[0]))] + rest
  }

  /** Exactly the posts not flagged deleted are drawn, each draggable
      exactly when owned; a list whose posts are all deleted draws nothing. */
  lemma {:induction false} VisibleItemsMembers(posts: seq<Post>, currentUser: Option<string>)
    ensures var r := VisibleItems(posts, currentUser);
      && (forall it :: it in r ==> it.post in posts && !it.post.isDeleted
                                   && (it.draggable <==> Owns(currentUser, it.post)))
      && (forall p :: p in posts && !p.isDeleted ==> Item(p, Owns(currentUser, p)) in r)
      && ((forall i :: 0 <= i < |posts| ==> posts[i].isDeleted) ==> r == [])
    decreases |posts|
  {
    if posts != [] {
      var tail := posts[1..];
      VisibleItemsMembers(tail, currentUser);
      assert forall p :: p in tail ==> p in posts;
      assert forall p :: p in posts ==> p == posts[0] || p in tail;
      if forall i :: 0 <= i < |posts| ==> posts[i].isDeleted {
        assert forall i :: 0 <= i < |tail| ==> tail[i].isDeleted by {
          forall i | 0 <= i < |tail|
            ensures tail[i].isDeleted
          {
            assert tail[i] == posts[i + 1];
          }
        }
      }
    }
  }

  /** A single post is drawn exactly when it is not flagged deleted. */
  lemma VisibleItemsSingle(p: Post, currentUser: Option<string>)
    ensures VisibleItems([p], currentUser) == if p.isDeleted then [] else [Item(p, Owns(currentUser, p))]
  {
    assert [p][1..] == [];
  }

  /** Drawing a list is drawing its parts one after the other, so with the
      single-post case the drawn items keep the list's order. */
  lemma {:induction false} VisibleItemsAppend(a: seq<Post>, b: seq<Post>, currentUser: Option<string>)
    ensures VisibleItems(a + b, currentUser) == VisibleItems(a, currentUser) + VisibleItems(b, currentUser)
    decreases |a|
  {
    if a == [] {
      assert a + b == b;
    } else {
      assert (a + b)[0] == a[0];
      assert (a + b)[1..] == a[1..] + b;
      VisibleItemsAppend(a[1..], b, currentUser);
    }
  }

  /** "No posts yet!" only for an empty list; a list whose posts are all
      deleted draws nothing and shows no message. */
  function Render(posts: seq<Post>, currentUser: Option<string>): (v: ListView)
    ensures v == NoPostsYet <==> |posts| == 0
    ensures v.Items? && (forall i :: 0 <= i < |posts| ==> posts[i].isDeleted) ==> v.items == []
    ensures v.Items? ==> forall it :: it in v.items ==> !it.post.isDeleted
    ensures v.Items? ==> v.items == VisibleItems(posts, currentUser)
  {
    VisibleItemsMembers(posts, currentUser);
    if |posts| == 0 then NoPostsYet else Items(VisibleItems(posts, currentUser))
  }
}

=== FILE: feed_pager.dfy ===
/** The infinite-scroll home feed (src/app/home/containers/HomePage.tsx):
    the query parameters advance one page at a time, each response is merged
    into an accumulator, and a few display predicates read the pager state. */
module FeedPager {
  import opened Common
  import opened FeedTypes
  import Assets

  /** The set of post ids occurring in `posts`. */
  function Ids(posts: seq<Post>): set<int> {
    set p | p in posts :: p.id
  }

  /** No id occurs twice. */
  predicate DistinctIds(posts: seq<Post>) {
    forall i, j :: 0 <= i < j < |posts| ==> posts[i].id != posts[j].id
  }

  lemma IdsAppend(a: seq<Post>, b: seq<Post>)
    ensures Ids(a + b) == Ids(a) + Ids(b)
  {
  }

  // ---------------------------------------------------------------------
  // Merging a response into the accumulator (HomePage.tsx:97-110)
  // ---------------------------------------------------------------------

  /** The posts of `incoming` whose id does not occur in `known`, in the
      order they arrive. Membership is checked against `known` only, so two
      posts of `incoming` sharing a new id are both kept. */
  function FreshPosts(known: seq<Post>, incoming: seq<Post>): (r: seq<Post>)
    ensures forall p :: p in r <==> p in incoming && p.id !in Ids(known)
    ensures |r| <= |incoming|
    decreases |incoming|
  {
    if incoming == [] then []
    else
      var rest := FreshPosts(known, incoming[1..]);
      if incoming[0].id in Ids(known) then rest else [incoming[0]] + rest
  }

  /** On a single post the filter keeps it exactly when its id is new. */
  lemma FreshPostsSingle(known: seq<Post>, p: Post)
    ensures FreshPosts(known, [p]) == if p.id in Ids(known) then [] else [p]
  {
    assert [p][1..] == [];
  }

  /** On a concatenation the filter is the concatenation of the filtered
      parts. With the single-post case this pins down the result completely:
      the kept posts, in the order they arrived. */
  lemma {:induction false} FreshPostsAppend(known: seq<Post>, a: seq<Post>, b: seq<Post>)
    ensures FreshPosts(known, a + b) == FreshPosts(known, a) + FreshPosts(known, b)
    decreases |a|
  {
    if a == [] {
      assert a + b == b;
    } else {
      assert (a + b)[0] == a[0];
      assert (a + b)[1..] == a[1..] + b;
      FreshPostsAppend(known, a[1..], b);
    }
  }

  /** Nothing passes the filter when every incoming id is already known. */
  lemma {:induction false} FreshPostsNoneNew(known: seq<Post>, incoming: seq<Post>)
    requires Ids(incoming) <= Ids(known)
    ensures FreshPosts(known, incoming) == []
    decreases |incoming|
  {
    if incoming != [] {
      assert incoming[0] in incoming;
      assert Ids(incoming[1..]) <= Ids(incoming) by {
        forall x | x in Ids(incoming[1..])
          ensures x in Ids(incoming)
        {
          var p :| p in incoming[1..] && p.id == x;
          assert p in incoming;
        }
      }
      FreshPostsNoneNew(known, incoming[1..]);
    }
  }

  /** Filtering a duplicate-free list keeps it duplicate-free. */
  lemma {:induction false} FreshPostsDistinct(known: seq<Post>, incoming: seq<Post>)
    requires DistinctIds(incoming)
    ensures DistinctIds(FreshPosts(known, incoming))
    decreases |incoming|
  {
    if incoming != [] {
      var tail := incoming[1..];
      assert DistinctIds(tail) by {
        forall i, j | 0 <= i < j < |tail|
          ensures tail[i].id != tail[j].id
        {
          assert tail[i] == incoming[i + 1] && tail[j] == incoming[j + 1];
        }
      }
      FreshPostsDistinct(known, tail);
      var rest := FreshPosts(known, tail);
      if incoming[0].id !in Ids(known) {
        var r := [incoming[0]] + rest;
        forall i, j | 0 <= i < j < |r|
          ensures r[i].id != r[j].id
        {
          if i == 0 {
            assert r[j] == rest[j - 1];
            assert rest[j - 1] in tail;
            var k :| 0 <= k < |tail| && tail[k] == rest[j - 1];
            assert incoming[k + 1] == rest[j - 1];
          } else {
            assert r[i] == rest[i - 1] && r[j] == rest[j - 1];
          }
        }
      }
    }
  }

  /** The merge effect run when a response arrives for the current page.
      No response leaves the accumulator as it is; a response to page 1
      replaces it wholesale; a response to any other page keeps the old
      accumulator as an unchanged prefix and appends, in response order and
      once each, exactly the posts whose id it did not already hold, after
      which every id of the response is held. */
  function MergePage(acc: seq<Post>, response: Option<PostsResponse>, page: Option<int>): (r: seq<Post>)
    ensures response.None? ==> r == acc
    ensures response.Some? && page == Some(1) ==> r == response.value.data
    ensures response.Some? && page != Some(1) ==>
      && |acc| <= |r|
      && r[..|acc|] == acc
      && (forall i :: |acc| <= i < |r| ==> r[i].id !in Ids(acc) && r[i] in response.value.data)
      && Ids(r) == Ids(acc) + Ids(response.value.data)
    ensures response.Some? && page != Some(1) ==> r[|acc|..] == FreshPosts(acc, response.value.data)
  {
    match response
    case None => acc
    case Some(res) =>
      if page == Some(1) then res.data
      else (
        var added := FreshPosts(acc, res.data);
        MergeIds(acc, res.data);
        assert forall i :: |acc| <= i < |acc + added| ==> (acc + added)[i] == added[i - |acc|];
        acc + added)
  }

  lemma MergeIds(acc: seq<Post>, data: seq<Post>)
    ensures Ids(acc + FreshPosts(acc, data)) == Ids(acc) + Ids(data)
  {
    var added := FreshPosts(acc, data);
    IdsAppend(acc, added);
    forall x | x in Ids(data)
      ensures x in Ids(acc) + Ids(added)
    {
      var p :| p in data && p.id == x;
      if x !in Ids(acc) {
        assert p in added;
      }
    }
  }

  /** A later page never adds a second post with an id already held: a
      duplicate-free accumulator merged with a duplicate-free response stays
      duplicate-free, whatever the page. */
  lemma MergeKeepsDistinct(acc: seq<Post>, response: Option<PostsResponse>, page: Option<int>)
    requires DistinctIds(acc)
    requires response.Some? ==> DistinctIds(response.value.data)
    ensures DistinctIds(MergePage(acc, response, page))
  {
    if response.Some? && page != Some(1) {
      var added := FreshPosts(acc, response.value.data);
      FreshPostsDistinct(acc, response.value.data);
      var r := acc + added;
      forall i, j | 0 <= i < j < |r|
        ensures r[i].id != r[j].id
      {
        if j >= |acc| {
          assert r[j] == added[j - |acc|];
          if i < |acc| {
            assert r[i] in acc;
          } else {
            assert r[i] == added[i - |acc|];
          }
        }
      }
    }
  }

  /** A later-page response whose ids are all held already changes nothing. */
  lemma MergeNothingNew(acc: seq<Post>, res: PostsResponse, page: Option<int>)
    requires page != Some(1)
    requires Ids(res.data) <= Ids(acc)
    ensures MergePage(acc, Some(res), page) == acc
  {
    var added := FreshPosts(acc, res.data);
    FreshPostsNoneNew(acc, res.data);
    assert acc + added == acc;
  }

  /** Applying the same response twice is the same as applying it once. */
  lemma MergeIdempotent(acc: seq<Post>, response: Option<PostsResponse>, page: Option<int>)
    ensures MergePage(MergePage(acc, response, page), response, page) == MergePage(acc, response, page)
  {
    if response.Some? && page != Some(1) {
      var once := MergePage(acc, response, page);
      MergeNothingNew(once, response.value, page);
    }
  }

  /** One page load: the page it was issued for and the response. */
  datatype Load = Load(page: Option<int>, response: PostsResponse)

  /** The accumulator after a series of page loads, merged in order. */
  function Accumulate(acc: seq<Post>, loads: seq<Load>): seq<Post>
    decreases |loads|
  {
    if loads == [] then acc
    else Accumulate(MergePage(acc, Some(loads[0].response), loads[0].page), loads[1..])
  }

  /** However many overlapping pages are loaded, no id is ever held twice,
      provided each response is duplicate-free on its own. */
  lemma {:induction false} AccumulateKeepsDistinct(acc: seq<Post>, loads: seq<Load>)
    requires DistinctIds(acc)
    requires forall i :: 0 <= i < |loads| ==> DistinctIds(loads[i].response.data)
    ensures DistinctIds(Accumulate(acc, loads))
    decreases |loads|
  {
    if loads != [] {
      MergeKeepsDistinct(acc, Some(loads[0].response), loads[0].page);
      AccumulateKeepsDistinct(MergePage(acc, Some(loads[0].response), loads[0].page), loads[1..]);
    }
  }

  /** Loading further pages (none of them page 1) never reorders or drops
      what was already accumulated. */
  lemma {:induction false} AccumulateKeepsPrefix(acc: seq<Post>, loads: seq<Load>)
    requires forall i :: 0 <= i < |loads| ==> loads[i].page != Some(1)
    ensures |acc| <= |Accumulate(acc, loads)|
    ensures Accumulate(acc, loads)[..|acc|] == acc
    decreases |loads|
  {
    if loads != [] {
      var next := MergePage(acc, Some(loads[0].response), loads[0].page);
      AccumulateKeepsPrefix(next, loads[1..]);
      var r := Accumulate(acc, loads);
      assert r[..|next|][..|acc|] == r[..|acc|];
    }
  }

  // ---------------------------------------------------------------------
  // Paging (HomePage.tsx:114-135)
  // ---------------------------------------------------------------------

  /** The guard of `loadMorePosts`: metadata is present and the current page
      (missing counts as 1) is below `max_page`. */
  predicate CanLoadMore(params: QueryParams, meta: Option<Meta>) {
    meta.Some? && PageOr(params, 1) < meta.value.maxPage
  }

  /** `loadMorePosts`: the parameters change exactly when the guard holds,
      and then only by moving to the next page; `per_page` is kept. */
  function LoadMore(params: QueryParams, meta: Option<Meta>): (r: QueryParams)
    ensures r.perPage == params.perPage
    ensures r != params <==> CanLoadMore(params, meta)
    ensures CanLoadMore(params, meta) ==> r.page == Some(PageOr(params, 1) + 1)
  {
    if CanLoadMore(params, meta) then params.(page := Some(PageOr(params, 1) + 1)) else params
  }

  /** `n` successive calls of `loadMorePosts` against the same metadata. */
  function LoadMoreTimes(params: QueryParams, meta: Option<Meta>, n: nat): QueryParams
    decreases n
  {
    if n == 0 then params else LoadMoreTimes(LoadMore(params, meta), meta, n - 1)
  }

  function Min(a: int, b: int): int { if a <= b then a else b }
  function Max(a: int, b: int): int { if a >= b then a else b }

  /** Paging is bounded: from page `p`, `n` calls reach `p + n` but never go
      beyond `max_page` (a page already at or past it stays put). */
  lemma {:induction false} LoadMoreTimesBounded(params: QueryParams, meta: Meta, n: nat)
    ensures PageOr(LoadMoreTimes(params, Some(meta), n), 1)
         == Min(PageOr(params, 1) + n, Max(PageOr(params, 1), meta.maxPage))
    ensures LoadMoreTimes(params, Some(meta), n).perPage == params.perPage
    decreases n
  {
    if n > 0 {
      LoadMoreTimesBounded(LoadMore(params, Some(meta)), meta, n - 1);
    }
  }

  /** From the parameters the feed mounts with, `n` calls of
      `loadMorePosts` reach page `1 + n`, stopping at `max_page`, and keep
      ten posts per page. */
  lemma PagingFromMount(meta: Meta, n: nat)
    ensures LoadMoreTimes(InitialParams, Some(meta), n).page == Some(Min(1 + n, Max(1, meta.maxPage)))
    ensures LoadMoreTimes(InitialParams, Some(meta), n).perPage == Some(10)
  {
    LoadMoreTimesBounded(InitialParams, meta, n);
    LoadMoreTimesKeepsPage(InitialParams, Some(meta), n);
  }

  /** A set page stays set under `loadMorePosts`. */
  lemma {:induction false} LoadMoreTimesKeepsPage(params: QueryParams, meta: Option<Meta>, n: nat)
    requires params.page.Some?
    ensures LoadMoreTimes(params, meta, n).page.Some?
    decreases n
  {
    if n > 0 {
      LoadMoreTimesKeepsPage(LoadMore(params, meta), meta, n - 1);
    }
  }

  /** `handleRefetch` (and the mount effect): back to page 1, `per_page`
      kept, so the next response replaces the whole feed. */
  function Refetch(params: QueryParams): (r: QueryParams)
    ensures r.page == Some(1) && r.perPage == params.perPage
    ensures forall acc, res :: MergePage(acc, Some(res), r.page) == res.data
  {
    params.(page := Some(1))
  }

  /** The intersection-observer callback: it asks for the next page only
      when the sentinel is visible, nothing is loading, and the page is set
      and non-zero (JavaScript truthiness) and below `max_page`, so a firing
      trigger always advances the page by one. */
  function ShouldLoadOnScroll(intersecting: bool, isLoading: bool, meta: Option<Meta>, params: QueryParams): (fire: bool)
    ensures fire ==> intersecting && !isLoading && CanLoadMore(params, meta)
    ensures fire ==> params.page.Some? && LoadMore(params, meta).page == Some(params.page.value + 1)
    ensures params.page.Some? && params.page.value != 0 ==>
      (fire <==> intersecting && !isLoading && CanLoadMore(params, meta))
    ensures params.page.None? || params.page == Some(0) ==> !fire
  {
    && intersecting && !isLoading && meta.Some?
    && params.page.Some? && params.page.value != 0 && params.page.value < meta.value.maxPage
  }

  /** Whether "No more posts to load" is shown (a missing page counts as 0,
      while the paging guard counts it as 1). With a page set it is shown
      exactly when no further page can be loaded; with none it is shown only
      for a non-positive `max_page`. */
  function NoMorePosts(meta: Option<Meta>, params: QueryParams): (shown: bool)
    ensures shown ==> meta.Some?
    ensures params.page.Some? && meta.Some? ==> (shown <==> !CanLoadMore(params, meta))
    ensures params.page.None? ==> (shown <==> meta.Some? && meta.value.maxPage <= 0)
  {
    meta.Some? && PageOr(params, 0) >= meta.value.maxPage
  }

  /** Once the terminal message is shown neither `loadMorePosts` nor the
      scroll trigger requests anything; with a page set and metadata present
      the message is shown exactly when no further page can be loaded. */
  lemma NoMorePostsStopsPaging(meta: Option<Meta>, params: QueryParams, intersecting: bool, isLoading: bool)
    ensures NoMorePosts(meta, params) ==> LoadMore(params, meta) == params
    ensures NoMorePosts(meta, params) ==> !ShouldLoadOnScroll(intersecting, isLoading, meta, params)
    ensures params.page.Some? && meta.Some? ==> (NoMorePosts(meta, params) <==> !CanLoadMore(params, meta))
  {
  }

  /** What the feed column shows under the composer. */
  datatype FeedView =
    | LoadingPosts
    | LoadError
    | PostsView(posts: seq<Post>, spinner: bool, noMorePosts: bool)

  /** The render decision: the full "Loading posts..." state only while page
      1 is loading; later pages keep the list on screen with a spinner below. */
  function View(isLoading: bool, isError: bool, params: QueryParams, meta: Option<Meta>, posts: seq<Post>): (v: FeedView)
    ensures v.LoadingPosts? <==> isLoading && params.page == Some(1)
    ensures v.LoadError? <==> isError && !(isLoading && params.page == Some(1))
    ensures v.PostsView? ==> v.posts == posts
    ensures v.PostsView? ==> (v.spinner <==> isLoading && PageOr(params, 0) > 1)
    ensures v.PostsView? ==> (v.noMorePosts <==> NoMorePosts(meta, params))
  {
    if isLoading && params.page == Some(1) then LoadingPosts
    else if isError then LoadError
    else PostsView(posts, isLoading && PageOr(params, 0) > 1, NoMorePosts(meta, params))
  }

  /** `getImageUrl`: no URL for an absent or empty path, otherwise the
      resolved asset URL. */
  function GetImageUrl(base: string, url: Option<string>): (r: Option<string>)
    ensures r.None? <==> !Truthy(url)
    ensures r.Some? ==> r.value == Assets.ResolveAssetUrl(base, url.value)
  {
    if Truthy(url) then Some(Assets.ResolveAssetUrl(base, url.value)) else None
  }
}

=== FILE: feed_types.dfy ===
/** The shapes the two feed pages exchange with the `/post` endpoint
    (`PostsQueryParams`, `PostsResponse`), reduced to the fields the feed
    logic reads. */
module FeedTypes {
  import opened Common

  /** A post as the feeds handle it: only `id` is inspected; `body` stands
      for the remaining fields, which are carried along unchanged. */
  datatype Post = Post(id: int, body: string)

  /** Pagination metadata of a response; only `max_page` is read. */
  datatype Meta = Meta(maxPage: int)

  datatype PostsResponse = PostsResponse(data: seq<Post>, meta: Meta)

  /** Query parameters; both fields are optional in the request type. */
  datatype QueryParams = QueryParams(page: Option<int>, perPage: Option<int>)

  /** The parameters both feed pages start from. */
  const InitialParams := QueryParams(Some(1), Some(10))

  /** `params.page ?? d`. */
  function PageOr(params: QueryParams, d: int): int {
    if params.page.Some? then params.page.value else d
  }
}

=== FILE: legacy_feed.dfy ===
/** The older feed page (src/app/page.tsx): the same page gate as the home
    feed, but the page shows only the current response and offers a
    "Load More" button instead of an infinite-scroll trigger. */
module LegacyFeed {
  import opened Common
  import opened FeedTypes
  import FeedPager

  /** The guard shared by `loadMorePosts` and the "Load More" button. The
      page is read with a non-null assertion; a missing page makes the
      comparison `undefined < max_page` false, so nothing is offered. */
  predicate CanLoadMore(params: QueryParams, meta: Option<Meta>) {
    meta.Some? && params.page.Some? && params.page.value < meta.value.maxPage
  }

  /** `loadMorePosts`: moves to the next page exactly when the guard holds,
      keeping `per_page`; otherwise the parameters are left as they are. */
  function LoadMore(params: QueryParams, meta: Option<Meta>): (r: QueryParams)
    ensures r.perPage == params.perPage
    ensures r != params <==> CanLoadMore(params, meta)
    ensures CanLoadMore(params, meta) ==> r.page == Some(params.page.value + 1)
  {
    if CanLoadMore(params, meta) then params.(page := Some(params.page.value + 1)) else params
  }

  /** The "Load More" button is offered exactly when pressing it would
      change the page, and pressing it never takes a page that was at most
      `max_page` beyond it. */
  function ShowLoadMore(meta: Option<Meta>, params: QueryParams): (shown: bool)
    ensures shown <==> LoadMore(params, meta) != params
    ensures shown ==> PageOr(LoadMore(params, meta), 0) <= meta.value.maxPage
  {
    meta.Some? && params.page.Some? && params.page.value < meta.value.maxPage
  }

  /** On this page the two guards agree with the home feed's whenever a
      page is set: both feeds stop at the same page. */
  lemma SameGateAsHomeFeed(params: QueryParams, meta: Option<Meta>)
    requires params.page.Some?
    ensures CanLoadMore(params, meta) <==> FeedPager.CanLoadMore(params, meta)
    ensures LoadMore(params, meta) == FeedPager.LoadMore(params, meta)
  {
  }

  /** The posts shown: the current response's data, or nothing before the
      first response arrives. Pages are not accumulated: what was shown for
      an earlier page plays no part. */
  function DisplayedPosts(response: Option<PostsResponse>): (r: seq<Post>)
    ensures response.None? ==> r == []
    ensures response.Some? ==> r == FeedPager.MergePage([], response, Some(1))
  {
    if response.Some? then response.value.data else []
  }

  /** Every id this page shows for a response is also held by the home
      feed's accumulator after merging the same response, whatever page it
      answers and whatever was accumulated before. */
  lemma DisplayedIdsAlsoInHomeFeed(acc: seq<Post>, res: PostsResponse, page: Option<int>)
    ensures FeedPager.Ids(DisplayedPosts(Some(res))) <= FeedPager.Ids(FeedPager.MergePage(acc, Some(res), page))
  {
  }

  /** What the feed column shows: a loading message while any page loads
      (unlike the home feed, which keeps the list for later pages). */
  datatype LegacyView =
    | LoadingPosts
    | LoadError
    | PostsView(posts: seq<Post>, loadMoreButton: bool)

  function View(isLoading: bool, isError: bool, response: Option<PostsResponse>, params: QueryParams): (v: LegacyView)
    ensures v.LoadingPosts? <==> isLoading
    ensures v.LoadError? <==> !isLoading && isError
    ensures v.PostsView? ==> v.posts == DisplayedPosts(response)
    ensures v.PostsView? ==>
      (v.loadMoreButton <==> response.Some? && LoadMore(params, Some(response.value.meta)) != params)
  {
    if isLoading then LoadingPosts
    else if isError then LoadError
    else
      var meta := if response.Some? then Some(response.value.meta) else None;
      PostsView(DisplayedPosts(response), ShowLoadMore(meta, params))
  }
}

=== FILE: post_composer.dfy ===
/** The post composer (src/app/components/PostForm.tsx). */
module PostComposer {
  import opened Common

  const EmptyPostAlert := "Post cannot be empty!"

  /** What a submit does: the text area's next content, the text handed to
      `addPost` if any, and the alert shown if any. */
  datatype Submission = Submission(content: string, posted: Option<string>, alert: Option<string>)

  /** `handleSubmit`: content that trims to nothing is refused with an
      alert and left in place; anything else is handed to `addPost` exactly
      as typed (untrimmed), once, and the text area is cleared. */
  function Submit(content: string): (r: Submission)
    ensures r.posted.None? <==> AllWhitespace(content)
    ensures r.posted.Some? ==> r.posted.value == content && r.content == "" && r.alert.None?
    ensures r.posted.None? ==> r.content == content && r.alert == Some(EmptyPostAlert)
  {
    if Trim(content) == "" then Submission(content, None, Some(EmptyPostAlert))
    else Submission("", Some(content), None)
  }

  /** Submitting twice in a row posts at most once: an accepted submit
      clears the text, so the second one is refused. */
  lemma DoubleSubmitPostsOnce(content: string)
    ensures var first := Submit(content);
            var second := Submit(first.content);
      first.posted.Some? ==> second.posted.None?
  {
  }
}

=== FILE: post_item.dfy ===
/** A single post card (src/app/components/PostItem.tsx): the relative time
    label, the like glyph, the owner-only controls and in-place editing. */
module PostItem {
  import opened Common

  /** The post record this card reads. */
  datatype Post = Post(id: int, content: string, likes: int, likedBy: seq<string>, author: string)

  // ---------------------------------------------------------------------
  // timeAgo (PostItem.tsx:20-34)
  // ---------------------------------------------------------------------

  const MsPerMinute := 1000 * 60
  const MinutesPerHour := 60

  /** The unit `timeAgo` reports. There is no unit above hours. */
  datatype Elapsed = JustNow | Minutes(n: nat) | Hours(n: nat)

  /** The reading of a difference `now - posted` in milliseconds: with
      `m = floor(diff / 60000)`, under one minute (including any negative
      difference, i.e. a timestamp in the future) is "just now", under an
      hour is `m` minutes, anything longer is `floor(m / 60)` hours. Dafny's
      division by a positive divisor rounds down, as `Math.floor` does. */
  function Classify(diffMs: int): (e: Elapsed)
    ensures e.JustNow? <==> diffMs < MsPerMinute
    ensures e.Minutes? ==> 1 <= e.n < 60 && e.n * MsPerMinute <= diffMs < (e.n + 1) * MsPerMinute
    ensures e.Hours? ==> 1 <= e.n && e.n * 60 * MsPerMinute <= diffMs < (e.n + 1) * 60 * MsPerMinute
    ensures e.Minutes? <==> MsPerMinute <= diffMs < 60 * MsPerMinute
  {
    var m := diffMs / MsPerMinute;
    if m < 1 then JustNow
    else if m < MinutesPerHour then Minutes(m)
    else
      var h := m / MinutesPerHour;
      assert h * 60 <= m < (h + 1) * 60;
      assert m * MsPerMinute <= diffMs < (m + 1) * MsPerMinute;
      HoursBounds(h, m, diffMs);
      Hours(h)
  }

  lemma HoursBounds(h: int, m: int, d: int)
    requires h * 60 <= m < (h + 1) * 60
    requires m * 60000 <= d < (m + 1) * 60000
    ensures h * 60 * 60000 <= d < (h + 1) * 60 * 60000
  {
  }

  /** "" for exactly one, "s" otherwise. */
  function Plural(n: nat): string {
    if n == 1 then "" else "s"
  }

  /** The label text for a reading: the count in plain decimal (never
      zero-padded) before the unit, and "Just now" only for that reading. */
  function Label(e: Elapsed): (r: string)
    ensures r == "Just now" <==> e.JustNow?
    ensures !e.JustNow? ==> |r| > 0 && (r[0] == '0' <==> e.n == 0)
  {
    match e
    case JustNow => "Just now"
    case Minutes(n) => NatToString(n) + " minute" + Plural(n) + " ago"
    case Hours(n) => NatToString(n) + " hour" + Plural(n) + " ago"
  }

  /** `timeAgo` over the millisecond difference. */
  function TimeAgo(diffMs: int): (r: string)
    ensures r == "Just now" <==> diffMs < MsPerMinute
    ensures ParseLabel(r) == Some(Classify(diffMs))
    ensures r != "Just now" ==> r[0] != '0'
  {
    LabelRoundTrip(Classify(diffMs));
    Label(Classify(diffMs))
  }

  /** Index of the first non-digit at or after `i`. */
  function DigitRun(s: string, i: nat): (k: nat)
    requires i <= |s|
    ensures i <= k <= |s|
    ensures forall j :: i <= j < k ==> IsDigit(s[j])
    ensures k < |s| ==> !IsDigit(s[k])
    decreases |s| - i
  {
    if i < |s| && IsDigit(s[i]) then DigitRun(s, i + 1) else i
  }

  /** Reads a label back: a leading decimal count without leading zeros
      followed by a unit whose plural ending agrees with the count. */
  function ParseLabel(s: string): Option<Elapsed> {
    if s == "Just now" then Some(JustNow)
    else
      var k := DigitRun(s, 0);
      if k == 0 || (k > 1 && s[0] == '0') then None
      else
        var n := DigitsValue(s[..k]);
        var unit := s[k..];
        if unit == " minute" + Plural(n) + " ago" then Some(Minutes(n))
        else if unit == " hour" + Plural(n) + " ago" then Some(Hours(n))
        else None
  }

  /** Every label reads back as the reading it was made from: the count is
      recoverable, minutes and hours are never confused, the singular form
      is used for exactly one, and no count reads as "Just now". */
  lemma LabelRoundTrip(e: Elapsed)
    ensures ParseLabel(Label(e)) == Some(e)
  {
    if !e.JustNow? {
      var n := e.n;
      var d := NatToString(n);
      var unit := if e.Minutes? then " minute" + Plural(n) + " ago" else " hour" + Plural(n) + " ago";
      var s := Label(e);
      assert s == d + unit;
      assert s[0] == d[0];
      assert s != "Just now";
      assert s[|d|] == ' ';
      var k := DigitRun(s, 0);
      assert forall j :: 0 <= j < |d| ==> s[j] == d[j];
      assert k == |d|;
      assert s[..k] == d;
      assert s[k..] == unit;
      assert k > 1 ==> s[0] != '0';
      NatToStringRoundTrip(n);
    }
  }

  /** The reader refuses a zero-padded count, which `timeAgo` never prints. */
  lemma ZeroPaddedCountRefused()
    ensures ParseLabel("05 minutes ago") == None
    ensures ParseLabel("5 minutes ago") == Some(Minutes(5))
  {
  }

  // ---------------------------------------------------------------------
  // Like glyph and owner controls (PostItem.tsx:104-117)
  // ---------------------------------------------------------------------

  const FilledHeart := "\U{2764}\U{FE0F}"
  const EmptyHeart := "\U{1F90D}"

  /** The filled heart exactly when a (non-empty) signed-in name is among
      the post's likers. */
  function LikeGlyph(user: Option<string>, post: Post): (g: string)
    ensures g == FilledHeart <==> Truthy(user) && user.value in post.likedBy
    ensures g != FilledHeart ==> g == EmptyHeart
  {
    if Truthy(user) && user.value in post.likedBy then FilledHeart else EmptyHeart
  }

  /** Edit and delete are offered exactly to the post's author. */
  function CanModify(user: Option<string>, post: Post): (ok: bool)
    ensures ok <==> user.Some? && user.value == post.author
  {
    user == Some(post.author)
  }

  // ---------------------------------------------------------------------
  // In-place editing (PostItem.tsx:43-63, 72-117)
  // ---------------------------------------------------------------------

  datatype CardState = CardState(isEditing: bool, draft: string)

  /** The card starts out of edit mode with the post's text as the draft. */
  function Init(post: Post): CardState {
    CardState(false, post.content)
  }

  /** The callback call `handleSave` makes. */
  datatype EditCall = EditCall(id: int, content: string)

  /** The action bar: only "Save" while editing; otherwise the like button
      and, for the author, edit and delete. */
  datatype Actions = SaveOnly | Browse(glyph: string, likes: int, ownerControls: bool)

  function ActionBar(user: Option<string>, post: Post, s: CardState): (a: Actions)
    ensures a.SaveOnly? <==> s.isEditing
    ensures a.Browse? ==> a.ownerControls == CanModify(user, post) && a.likes == post.likes
                          && a.glyph == LikeGlyph(user, post)
  {
    if s.isEditing then SaveOnly else Browse(LikeGlyph(user, post), post.likes, CanModify(user, post))
  }

  /** A click on the edit button enters edit mode; the button exists only
      in the author's action bar, so for anyone else, or while already
      editing, nothing happens. */
  function StartEdit(user: Option<string>, post: Post, s: CardState): (r: CardState)
    ensures CanModify(user, post) && !s.isEditing ==> r == s.(isEditing := true)
    ensures !(CanModify(user, post) && !s.isEditing) ==> r == s
  {
    var bar := ActionBar(user, post, s);
    if bar.Browse? && bar.ownerControls then s.(isEditing := true) else s
  }

  /** Typing into the text area replaces the draft. */
  function Type(s: CardState, text: string): CardState {
    s.(draft := text)
  }

  /** `handleSave`: sends the post's id with the current draft and leaves
      edit mode, keeping the draft. */
  function Save(post: Post, s: CardState): (r: (CardState, EditCall))
    ensures r.1.id == post.id && r.1.content == s.draft
    ensures !r.0.isEditing && r.0.draft == s.draft
  {
    (s.(isEditing := false), EditCall(post.id, s.draft))
  }

  /** An author who opens the editor, types `text` and saves sends exactly
      `text` for this post, and the card is back out of edit mode. */
  lemma EditSession(user: Option<string>, post: Post, text: string)
    requires CanModify(user, post)
    ensures var s := Type(StartEdit(user, post, Init(post)), text);
            s.isEditing && Save(post, s) == (CardState(false, text), EditCall(post.id, text))
  {
  }
}

=== FILE: profile_editor.dfy ===
/** The profile editor (src/app/profile/page.tsx): form fields seeded from
    the stored user, validation of a chosen avatar file, the multipart body
    sent on save, and the store update and error text after the request. */
module ProfileEditor {
  import opened Common
  import opened Users
  import Assets

  /** The form's local state. The preview after an accepted file is set by
      an asynchronous file reader and is not modelled. */
  datatype Form = Form(name: string, bio: string, preview: Option<string>, imageFile: Option<File>)

  /** A chosen file: its name, its size in bytes and its MIME type. */
  datatype File = File(fileName: string, size: int, mimeType: string)

  /** The form as the page first renders it, before any store effect. */
  const EmptyForm := Form("", "", None, None)

  // ---------------------------------------------------------------------
  // Seeding from the store (page.tsx:27-39)
  // ---------------------------------------------------------------------

  /** `x || ""` for the store's fields. */
  function OrEmpty(s: Option<string>): (r: string)
    ensures Truthy(s) ==> r == s.value
    ensures !Truthy(s) ==> r == ""
  {
    if s.Some? then s.value else ""
  }

  /** The effect run when the stored user changes: with a user, the name and
      bio fields take its values (a missing bio becomes ""), and the preview
      follows the shared preview rule; without one nothing changes. A chosen
      file is kept either way. */
  function SeedFromStore(base: string, f: Form, storeUser: Option<User>): (r: Form)
    ensures storeUser.None? ==> r == f
    ensures storeUser.Some? ==>
      && r.name == storeUser.value.name
      && r.bio == OrEmpty(storeUser.value.bio)
      && r.preview == Assets.SyncPreview(base, f.preview, storeUser)
    ensures r.imageFile == f.imageFile
  {
    match storeUser
    case None => f
    case Some(u) =>
      Form(u.name, OrEmpty(u.bio), Assets.SyncPreview(base, f.preview, storeUser), f.imageFile)
  }

  /** On first render with a stored user the fields show its name and bio,
      and a preview appears exactly when the user has a non-empty image
      path, resolved by the shared asset rule. */
  lemma FirstSeed(base: string, u: User)
    ensures var g := SeedFromStore(base, EmptyForm, Some(u));
      && g.name == u.name && g.bio == OrEmpty(u.bio) && g.imageFile.None?
      && (g.preview.Some? <==> Truthy(u.imageUrl))
      && (g.preview.Some? ==> g.preview.value == Assets.ResolveAssetUrl(base, u.imageUrl.value))
  {
  }

  // ---------------------------------------------------------------------
  // Avatar validation (page.tsx:74-95)
  // ---------------------------------------------------------------------

  const MaxImageBytes := 2 * 1024 * 1024
  const ImagePrefix := "image/"
  const SizeError := "Image size should be less than 2MB"
  const TypeError := "Please select an image file"

  /** The outcome of choosing a file. */
  datatype Choice = NoFile | TooLarge | NotAnImage | Accepted(file: File)

  /** The checks in order: no file, then size (strictly more than 2 MiB is
      refused), then the MIME type prefix. */
  function CheckImage(file: Option<File>): (c: Choice)
    ensures c == NoFile <==> file.None?
    ensures c == TooLarge <==> file.Some? && file.value.size > MaxImageBytes
    ensures c == NotAnImage <==>
      file.Some? && file.value.size <= MaxImageBytes && !StartsWith(file.value.mimeType, ImagePrefix)
    ensures c.Accepted? ==>
      file == Some(c.file) && c.file.size <= MaxImageBytes && StartsWith(c.file.mimeType, ImagePrefix)
  {
    match file
    case None => NoFile
    case Some(fl) =>
      if fl.size > MaxImageBytes then TooLarge
      else if !StartsWith(fl.mimeType, ImagePrefix) then NotAnImage
      else Accepted(fl)
  }

  /** The toast shown for a refused file, if any: one message per kind of
      refusal, and none for an accepted file or no file. */
  function ChoiceError(c: Choice): (r: Option<string>)
    ensures r.Some? <==> c.TooLarge? || c.NotAnImage?
    ensures c.TooLarge? ==> r == Some(SizeError)
    ensures c.NotAnImage? ==> r == Some(TypeError)
    ensures SizeError != TypeError
  {
    match c
    case TooLarge => Some(SizeError)
    case NotAnImage => Some(TypeError)
    case _ => None
  }

  /** `handleImageChange`: only an accepted file replaces the stored one;
      every other outcome leaves the form as it was. Exactly one error is
      reported for a refused file, the size error taking precedence. */
  function ChooseImage(f: Form, file: Option<File>): (r: (Form, Option<string>))
    ensures CheckImage(file).Accepted? ==> r.0 == f.(imageFile := file) && r.1.None?
    ensures !CheckImage(file).Accepted? ==> r.0 == f
    ensures r.1.Some? <==> file.Some? && !CheckImage(file).Accepted?
    ensures file.Some? && file.value.size > MaxImageBytes ==> r.1 == Some(SizeError)
    ensures CheckImage(file) == NotAnImage ==> r.1 == Some(TypeError)
  {
    var c := CheckImage(file);
    match c
    case Accepted(fl) => (f.(imageFile := Some(fl)), None)
    case _ => (f, ChoiceError(c))
  }

  /** A file of exactly 2 MiB with an image type is accepted; one byte more
      is refused for its size, whatever its type. */
  lemma SizeBoundary(fileName: string, mimeType: string)
    ensures StartsWith(mimeType, ImagePrefix) ==>
      CheckImage(Some(File(fileName, 2097152, mimeType))).Accepted?
    ensures CheckImage(Some(File(fileName, 2097153, mimeType))) == TooLarge
  {
  }

  // ---------------------------------------------------------------------
  // Submission (page.tsx:97-112)
  // ---------------------------------------------------------------------

  datatype FieldValue = Text(text: string) | Blob(file: File)

  /** The multipart entries appended, in order. `bio` is a string in the
      form state, so its `!== null` test always passes. */
  function FormFields(f: Form): (fields: seq<(string, FieldValue)>)
    ensures |fields| == if f.imageFile.Some? then 3 else 2
    ensures fields[0] == ("name", Text(f.name)) && fields[1] == ("bio", Text(f.bio))
    ensures (exists i :: 0 <= i < |fields| && fields[i].0 == "image") <==> f.imageFile.Some?
    ensures forall i :: 2 <= i < |fields| ==> f.imageFile.Some? && fields[i] == ("image", Blob(f.imageFile.value))
  {
    var fields := [("name", Text(f.name)), ("bio", Text(f.bio))]
      + (if f.imageFile.Some? then [("image", Blob(f.imageFile.value))] else []);
    assert f.imageFile.Some? ==> fields[2].0 == "image";
    assert "name" != "image" && "bio" != "image";
    fields
  }

  /** The body sent after choosing a file carries that file when it was
      accepted and whatever was chosen before when it was refused. */
  lemma SubmitAfterChoice(f: Form, file: Option<File>)
    ensures var g := ChooseImage(f, file).0;
      && (CheckImage(file).Accepted? ==> FormFields(g) == FormFields(f)[..2] + [("image", Blob(file.value))])
      && (!CheckImage(file).Accepted? ==> FormFields(g) == FormFields(f))
  {
  }

  // ---------------------------------------------------------------------
  // After the request (page.tsx:50-66)
  // ---------------------------------------------------------------------

  /** The fields the update endpoint returns. */
  datatype Updated = Updated(name: string, bio: Option<string>, imageUrl: Option<string>)

  /** `onSuccess`: with a stored user, the new stored user keeps its id and
      username and takes name, bio and image from the response; with none,
      nothing is written (`None`). */
  function OnSuccess(storeUser: Option<User>, data: Updated): (written: Option<User>)
    ensures written.Some? <==> storeUser.Some?
    ensures written.Some? ==>
      && written.value.id == storeUser.value.id
      && written.value.username == storeUser.value.username
      && written.value.name == data.name
      && written.value.bio == data.bio
      && written.value.imageUrl == data.imageUrl
  {
    match storeUser
    case None => None
    case Some(u) => Some(u.(name := data.name, bio := data.bio, imageUrl := data.imageUrl))
  }

  /** Reopening the editor after a successful save shows the saved name
      and bio. */
  lemma SavedValuesReappear(base: string, f: Form, u: User, data: Updated)
    ensures var g := SeedFromStore(base, f, OnSuccess(Some(u), data));
      g.name == data.name && g.bio == OrEmpty(data.bio)
  {
  }

  const UpdateFailed := "Failed to update profile"

  /** `onError`: the server's message when it sent a non-empty one, else
      the fixed fallback; never empty. */
  function ErrorMessage(serverMessage: Option<string>): (m: string)
    ensures Truthy(serverMessage) ==> m == serverMessage.value
    ensures !Truthy(serverMessage) ==> m == UpdateFailed
    ensures m != ""
  {
    if Truthy(serverMessage) then serverMessage.value else UpdateFailed
  }
}

=== FILE: session_guard.dfy ===
/** The authentication wrapper (src/components/hoc/withAuth.tsx): the
    `checkAuth` resolution of the session, the redirect decision, and the
    render decision between the loading placeholder and the wrapped view. */
module SessionGuard {
  import opened Common
  import opened Users

  const LoginRoute := "/login"
  const DefaultRoute := "/"
  const RedirectQuery := "?redirect="
  const InvalidSessionMessage := "Login session is invalid"

  /** A token is present when the cookie read returns a truthy string. */
  predicate HasToken(token: Option<string>) {
    Truthy(token)
  }

  // ---------------------------------------------------------------------
  // checkAuth (withAuth.tsx:41-72)
  // ---------------------------------------------------------------------

  /** How the `/user/me` request ends: with an identity, with a response
      whose `data` is missing, or with an error. */
  datatype FetchOutcome = Identity(user: User) | EmptyData | FetchFailed

  /** The calls `checkAuth` makes, in order, on the auth store, the token
      cookie, the toast area and the network. */
  datatype Effect =
    | Logout
    | StopLoading
    | FetchIdentity
    | Login(user: User, token: string)
    | RemoveToken
    | Toast(message: string)

  predicate LogsIn(effects: seq<Effect>) {
    exists i :: 0 <= i < |effects| && effects[i].Login?
  }

  /** The completion of `loadUser`: an identity logs in with the token it
      was fetched with; a response without data raises the invalid-session
      toast and, like a failed request, discards the token; the `finally`
      step stops loading last in every outcome. Each call is made at most
      once. */
  function FetchCompletion(outcome: FetchOutcome, token: string): (r: seq<Effect>)
    ensures |r| >= 2 && r[|r| - 1] == StopLoading
    ensures LogsIn(r) <==> outcome.Identity?
    ensures outcome.Identity? ==> Login(outcome.user, token) in r
    ensures RemoveToken in r <==> !outcome.Identity?
    ensures Toast(InvalidSessionMessage) in r <==> outcome.EmptyData?
    ensures forall i, j :: 0 <= i < j < |r| ==> r[i] != r[j]
    ensures forall e :: e in r && e.Login? ==> e == Login(outcome.user, token)
    ensures forall e :: e in r && e.Toast? ==> e == Toast(InvalidSessionMessage) && outcome.EmptyData?
  {
    assert outcome.Identity? ==> [Login(outcome.user, token), StopLoading][0].Login?;
    match outcome
    case Identity(u) => [Login(u, token), StopLoading]
    case EmptyData => [Toast(InvalidSessionMessage), RemoveToken, StopLoading]
    case FetchFailed => [RemoveToken, StopLoading]
  }

  /** One run of `checkAuth` (on mount or on window focus), with the
      identity request, when one is made, ending in `outcome`.
      - No token: log out if the store says authenticated, stop loading,
        request nothing.
      - A token and a cached user: do nothing at all, not even stop loading.
      - A token and no user: request the identity; on data log in with that
        identity and the same token, otherwise discard the token without
        logging in; loading stops last in every outcome.
      No call is made twice, and the only toast is the invalid-session one
      for a response without data. */
  function CheckAuth(token: Option<string>, isAuthenticated: bool, user: Option<User>, outcome: FetchOutcome): (effects: seq<Effect>)
    ensures Logout in effects <==> !HasToken(token) && isAuthenticated
    ensures FetchIdentity in effects <==> HasToken(token) && user.None?
    ensures StopLoading in effects <==> !(HasToken(token) && user.Some?)
    ensures StopLoading in effects ==> effects[|effects| - 1] == StopLoading
    ensures LogsIn(effects) <==> HasToken(token) && user.None? && outcome.Identity?
    ensures forall i :: 0 <= i < |effects| && effects[i].Login? ==>
              effects[i] == Login(outcome.user, token.value)
    ensures RemoveToken in effects <==> HasToken(token) && user.None? && !outcome.Identity?
    ensures HasToken(token) && user.Some? ==> effects == []
    ensures forall i, j :: 0 <= i < j < |effects| ==> effects[i] != effects[j]
    ensures forall e :: e in effects && e.Toast? ==>
              e == Toast(InvalidSessionMessage) && HasToken(token) && user.None? && outcome.EmptyData?
  {
    if !HasToken(token) then
      (if isAuthenticated then [Logout] else []) + [StopLoading]
    else if user.None? then
      var effects := [FetchIdentity] + FetchCompletion(outcome, token.value);
      assert outcome.Identity? ==> effects[1].Login?;
      effects
    else
      []
  }

  /** The client session: the token cookie and the auth store's fields. */
  datatype Session = Session(token: Option<string>, isAuthenticated: bool, isLoading: bool, user: Option<User>)

  /** The store as the guard relies on it: `login` records the identity and
      marks the session authenticated, `logout` clears both, `stopLoading`
      ends the loading phase; `removeToken` deletes the cookie. */
  function ApplyEffect(s: Session, e: Effect): Session {
    match e
    case Logout => s.(isAuthenticated := false, user := None)
    case StopLoading => s.(isLoading := false)
    case FetchIdentity => s
    case Login(u, _) => s.(isAuthenticated := true, user := Some(u))
    case RemoveToken => s.(token := None)
    case Toast(_) => s
  }

  function ApplyEffects(s: Session, effects: seq<Effect>): Session
    decreases |effects|
  {
    if effects == [] then s else ApplyEffects(ApplyEffect(s, effects[0]), effects[1..])
  }

  /** One resolution of the session against its own token and cached user. */
  function Resolve(s: Session, outcome: FetchOutcome): Session {
    ApplyEffects(s, CheckAuth(s.token, s.isAuthenticated, s.user, outcome))
  }

  /** `checkAuth` from any store state. Without a token the session ends
      unauthenticated, the user is cleared only if `logout` ran (that is,
      if it was authenticated), and loading stops. A token with a cached
      user changes nothing. A token without a user ends, on an identity,
      authenticated with it; otherwise only the token is discarded: the
      store's flags and user are left as they were, since this path never
      calls `logout`. */
  lemma ResolveAnyState(s: Session, outcome: FetchOutcome)
    ensures !HasToken(s.token) ==>
      Resolve(s, outcome) == s.(isAuthenticated := false, isLoading := false,
                                user := if s.isAuthenticated then None else s.user)
    ensures HasToken(s.token) && s.user.Some? ==> Resolve(s, outcome) == s
    ensures HasToken(s.token) && s.user.None? && outcome.Identity? ==>
      Resolve(s, outcome) == s.(isAuthenticated := true, isLoading := false, user := Some(outcome.user))
    ensures HasToken(s.token) && s.user.None? && !outcome.Identity? ==>
      Resolve(s, outcome) == s.(token := None, isLoading := false)
  {
    var effects := CheckAuth(s.token, s.isAuthenticated, s.user, outcome);
    if !HasToken(s.token) {
      if s.isAuthenticated {
        assert effects == [Logout, StopLoading];
        var s1 := s.(isAuthenticated := false, user := None);
        assert ApplyEffects(s, effects) == ApplyEffects(s1, [StopLoading]);
        assert ApplyEffects(s1, [StopLoading]) == ApplyEffects(s1.(isLoading := false), []);
      } else {
        assert effects == [StopLoading];
        assert ApplyEffects(s, effects) == ApplyEffects(s.(isLoading := false), []);
      }
    } else if s.user.None? {
      var t := s.token.value;
      assert effects[1..] == FetchCompletion(outcome, t);
      assert ApplyEffects(s, effects) == ApplyEffects(s, FetchCompletion(outcome, t));
      match outcome
      case Identity(u) =>
        var s2 := s.(isAuthenticated := true, user := Some(u));
        assert ApplyEffects(s, [Login(u, t), StopLoading]) == ApplyEffects(s2, [StopLoading]);
        assert ApplyEffects(s2, [StopLoading]) == ApplyEffects(s2.(isLoading := false), []);
      case EmptyData =>
        var s2 := s.(token := None);
        assert ApplyEffects(s, [Toast(InvalidSessionMessage), RemoveToken, StopLoading])
            == ApplyEffects(s, [RemoveToken, StopLoading]);
        assert ApplyEffects(s, [RemoveToken, StopLoading]) == ApplyEffects(s2, [StopLoading]);
        assert ApplyEffects(s2, [StopLoading]) == ApplyEffects(s2.(isLoading := false), []);
      case FetchFailed =>
        var s2 := s.(token := None);
        assert ApplyEffects(s, [RemoveToken, StopLoading]) == ApplyEffects(s2, [StopLoading]);
        assert ApplyEffects(s2, [StopLoading]) == ApplyEffects(s2.(isLoading := false), []);
    }
  }

  /** The store's state when the application mounts: loading, not
      authenticated, no user. The store module is not part of this model;
      this initial state is an assumption about it. */
  function Initial(token: Option<string>): Session {
    Session(token, false, true, None)
  }

  /** The state machine of a fresh mount: no token ends unauthenticated; a
      token whose identity loads ends authenticated with that identity; a
      token whose identity does not load ends unauthenticated with the token
      discarded. Loading has finished in every case. */
  lemma ResolveFromMount(token: Option<string>, outcome: FetchOutcome)
    ensures var s := Resolve(Initial(token), outcome);
      && !s.isLoading
      && (!HasToken(token) ==> !s.isAuthenticated && s.user.None? && s.token == token)
      && (HasToken(token) && outcome.Identity? ==>
            s.isAuthenticated && s.user == Some(outcome.user) && s.token == token)
      && (HasToken(token) && !outcome.Identity? ==>
            !s.isAuthenticated && s.user.None? && s.token.None?)
  {
    ResolveAnyState(Initial(token), outcome);
  }

  /** Once a user is cached, a later focus-triggered check changes nothing. */
  lemma ResolveStableOnceResolved(s: Session, outcome: FetchOutcome)
    requires HasToken(s.token) && s.user.Some?
    ensures Resolve(s, outcome) == s
  {
  }

  // ---------------------------------------------------------------------
  // Redirect decision (withAuth.tsx:83-98)
  // ---------------------------------------------------------------------

  /** The login route carrying the current path verbatim: the path is
      interpolated without `encodeURIComponent`, so it is copied character
      for character after `/login?redirect=`. */
  function LoginRedirect(pathName: string): (r: string)
    ensures |r| > |LoginRoute| && StartsWith(r, LoginRoute) && r[|LoginRoute|] == '?'
    ensures StartsWith(r, LoginRoute + RedirectQuery)
    ensures |r| == |LoginRoute| + |RedirectQuery| + |pathName|
    ensures forall i :: 0 <= i < |pathName| ==> r[|LoginRoute| + |RedirectQuery| + i] == pathName[i]
  {
    LoginRoute + RedirectQuery + pathName
  }

  /** Characters that `URLSearchParams` does not read back literally: `&`
      and `#` end the value, `+` reads as a space and `%` starts an escape. */
  predicate QuerySpecial(c: char) {
    c == '&' || c == '#' || c == '+' || c == '%'
  }

  /** A path that survives the trip through an unencoded query value. */
  predicate SafePath(pathName: string) {
    forall i :: 0 <= i < |pathName| ==> !QuerySpecial(pathName[i])
  }

  /** The value `URLSearchParams.get` reads from the text after `name=`: up
      to the first `&` or `#`, with each `+` read as a space. Escapes
      introduced by `%` are not decoded here. */
  function QueryValue(s: string): (r: string)
    ensures |r| <= |s|
    ensures forall i :: 0 <= i < |r| ==> r[i] != '&' && r[i] != '#' && r[i] != '+'
    ensures forall i :: 0 <= i < |r| ==>
              s[i] != '&' && s[i] != '#' && r[i] == (if s[i] == '+' then ' ' else s[i])
    ensures |r| < |s| ==> s[|r|] == '&' || s[|r|] == '#'
    decreases |s|
  {
    if s == [] || s[0] == '&' || s[0] == '#' then []
    else [if s[0] == '+' then ' ' else s[0]] + QueryValue(s[1..])
  }

  /** A value without special characters is read back unchanged. */
  lemma {:induction false} QueryValueSafe(s: string)
    requires SafePath(s)
    ensures QueryValue(s) == s
    decreases |s|
  {
    if s != [] {
      assert !QuerySpecial(s[0]);
      assert SafePath(s[1..]) by {
        forall i | 0 <= i < |s[1..]|
          ensures !QuerySpecial(s[1..][i])
        {
          assert s[1..][i] == s[i + 1];
        }
      }
      QueryValueSafe(s[1..]);
    }
  }

  /** A separator ends the value: whatever follows `&` is another parameter. */
  lemma {:induction false} QueryValueStopsAtAmpersand(a: string, b: string)
    requires SafePath(a)
    ensures QueryValue(a + "&" + b) == a
    decreases |a|
  {
    if a == [] {
      assert a + "&" + b == "&" + b;
    } else {
      assert (a + "&" + b)[0] == a[0];
      assert (a + "&" + b)[1..] == a[1..] + "&" + b;
      assert SafePath(a[1..]) by {
        forall i | 0 <= i < |a[1..]|
          ensures !QuerySpecial(a[1..][i])
        {
          assert a[1..][i] == a[i + 1];
        }
      }
      QueryValueStopsAtAmpersand(a[1..], b);
    }
  }

  /** Reading the `redirect` parameter back off a login redirect route. */
  function RedirectParam(route: string): (r: Option<string>)
    ensures r.Some? <==> StartsWith(route, LoginRoute + RedirectQuery)
    ensures r.Some? ==> |r.value| <= |route| - |LoginRoute + RedirectQuery|
  {
    var prefix := LoginRoute + RedirectQuery;
    if StartsWith(route, prefix) then Some(QueryValue(route[|prefix|..])) else None
  }

  /** A path free of query-special characters, put into the login route, is
      the path read back out of it. */
  lemma LoginRedirectRoundTrip(pathName: string)
    requires SafePath(pathName)
    ensures RedirectParam(LoginRedirect(pathName)) == Some(pathName)
  {
    var r := LoginRedirect(pathName);
    assert r[|LoginRoute + RedirectQuery|..] == pathName;
    QueryValueSafe(pathName);
  }

  /** A path containing `&` does not make the trip: the login page reads
      back only the part before it. */
  lemma LoginRedirectCutAtAmpersand(a: string, b: string)
    requires SafePath(a)
    ensures RedirectParam(LoginRedirect(a + "&" + b)) == Some(a)
  {
    var r := LoginRedirect(a + "&" + b);
    assert r[|LoginRoute + RedirectQuery|..] == a + "&" + b;
    QueryValueStopsAtAmpersand(a, b);
  }

  /** The route the guard replaces the current one with, if any. Nothing
      happens while loading. A signed-in user (authenticated and loaded) is
      sent away from the login page to the `redirect` parameter, or to the
      home route when that is absent or empty, and stays anywhere else. A
      guarded view without a signed-in user sends to the login page with the
      current path. A public view sends an authenticated user without a
      loaded identity from the login page to the home route. */
  function RedirectTarget(isLoading: bool, isAuthenticated: bool, user: Option<User>, requireAuth: bool,
                          pathName: string, redirect: Option<string>): (r: Option<string>)
    ensures isLoading ==> r.None?
    ensures !isLoading && isAuthenticated && user.Some? ==>
      (r.Some? <==> pathName == LoginRoute)
      && (r.Some? ==> r.value == if Truthy(redirect) then redirect.value else DefaultRoute)
    ensures !isLoading && !(isAuthenticated && user.Some?) && requireAuth ==>
      r == Some(LoginRedirect(pathName))
    ensures !isLoading && !(isAuthenticated && user.Some?) && !requireAuth ==>
      (r.Some? <==> isAuthenticated && pathName == LoginRoute)
      && (r.Some? ==> r.value == DefaultRoute)
  {
    if isLoading then None
    else if isAuthenticated && user.Some? then
      if pathName == LoginRoute then Some(if Truthy(redirect) then redirect.value else DefaultRoute) else None
    else if requireAuth then Some(LoginRedirect(pathName))
    else if !requireAuth && isAuthenticated && pathName == LoginRoute then Some(DefaultRoute)
    else None
  }

  // ---------------------------------------------------------------------
  // Render decision (withAuth.tsx:100-111)
  // ---------------------------------------------------------------------

  /** The loading placeholder, or the wrapped view given the store's user. */
  datatype View = LoadingView | Wrapped(user: Option<User>)

  /** The wrapped view appears only once loading is over and, for a guarded
      view, only with an authenticated session and a loaded identity; it is
      handed exactly the store's user. */
  function Render(isLoading: bool, isAuthenticated: bool, user: Option<User>, requireAuth: bool): (v: View)
    ensures v.Wrapped? <==> !isLoading && (requireAuth ==> isAuthenticated && user.Some?)
    ensures v.Wrapped? ==> v.user == user
  {
    if isLoading || (requireAuth && !isAuthenticated) then LoadingView
    else if requireAuth && (!isAuthenticated || user.None?) then LoadingView
    else Wrapped(user)
  }

  /** A guarded view is never both shown and redirected to the login page:
      sending to login implies the placeholder, and showing the view implies
      no login redirect. */
  lemma GuardedViewOrLogin(isLoading: bool, isAuthenticated: bool, user: Option<User>,
                           pathName: string, redirect: Option<string>)
    ensures var r := RedirectTarget(isLoading, isAuthenticated, user, true, pathName, redirect);
            var v := Render(isLoading, isAuthenticated, user, true);
      && (r == Some(LoginRedirect(pathName)) && pathName != LoginRoute ==> v == LoadingView)
      && (v.Wrapped? ==> r.None? || pathName == LoginRoute)
  {
  }

  /** End to end: mounting a guarded view with a token whose identity loads
      shows the view with that identity and redirects nowhere (off the login
      page); with no token it shows the placeholder and sends to login with
      the current path, which the login page reads back when it holds no
      query-special character. */
  lemma GuardedMount(token: Option<string>, outcome: FetchOutcome, pathName: string, redirect: Option<string>)
    requires pathName != LoginRoute
    ensures var s := Resolve(Initial(token), outcome);
      HasToken(token) && outcome.Identity? ==>
        && Render(s.isLoading, s.isAuthenticated, s.user, true) == Wrapped(Some(outcome.user))
        && RedirectTarget(s.isLoading, s.isAuthenticated, s.user, true, pathName, redirect).None?
    ensures var s := Resolve(Initial(token), outcome);
      !HasToken(token) ==>
        && Render(s.isLoading, s.isAuthenticated, s.user, true) == LoadingView
        && RedirectTarget(s.isLoading, s.isAuthenticated, s.user, true, pathName, redirect)
           == Some(LoginRedirect(pathName))
        && (SafePath(pathName) ==> RedirectParam(LoginRedirect(pathName)) == Some(pathName))
  {
    ResolveFromMount(token, outcome);
    if SafePath(pathName) {
      LoginRedirectRoundTrip(pathName);
    }
  }

  /** Once signed in on the login page that was reached through a guard
      redirect, the guard's own decision targets the path the user came
      from, provided that path reads back literally from the query. */
  lemma ReturnAfterLogin(pathName: string, u: User)
    requires pathName != ""
    requires SafePath(pathName)
    ensures RedirectTarget(false, true, Some(u), false, LoginRoute,
                           RedirectParam(LoginRedirect(pathName))) == Some(pathName)
  {
    LoginRedirectRoundTrip(pathName);
  }
}

=== FILE: users.dfy ===
/** The signed-in identity as the client keeps it (src/types/user.ts). */
module Users {
  import opened Common

  datatype User = User(
    id: string,
    name: string,
    username: string,
    bio: Option<string>,
    imageUrl: Option<string>)
}
